=== FILE: README.md ===
# muttdown MIME tree transformation, in Dafny

muttdown rewrites an outgoing email so that its plain-text or markdown body
parts are also offered as HTML. The original message is kept as the fallback.
This project models the part of `muttdown/main.py` that transforms the MIME
tree, and proves properties of that model. The model has three pieces:

- **`convert_one`** (`LeafConverter.ConvertOne`) converts one leaf.
  - It splits the raw body at the signature delimiter `"\n-- \n"`, the
    usenet convention (section 4.3 of RFC 3676).
  - It sends only the text before the delimiter to the markdown renderer.
    The request is always `md` to `html5`, with arguments `-s`, plus
    `-H <css>` when a non-empty stylesheet was given.
  - It appends the signature verbatim inside a fixed
    `<div class="signature">` block, one `<br />` per line.
  - When the delimiter occurs again after the end of its first occurrence,
    `split` gives three or more pieces and Python's two-way unpacking fails.
    The model reports that as an error. Overlapping occurrences, as in
    `"\n-- \n-- \n"`, are not counted twice by `split` and do not fail.
- **`convert_tree`** (`TreeConverter.ConvertTree`) is a structural recursion
  with three cases.
  - A `multipart/signed` node (section 2.1 of RFC 1847) is replaced by the
    converted form of its first child that is not `application/pgp-signature`
    (section 5 of RFC 3156). If there is no such child, the Python function
    falls off the end and returns `None`, and the caller's tuple unpacking
    then raises. The model reports that as the `SignedWithoutBody` error.
  - Any other container is rebuilt as `multipart/<same subtype>` with no
    header fields of its own. Its children are the converted children, in the
    same order. Its flag is the OR of the children's flags.
  - A leaf is converted when its `Content-Disposition` value is exactly
    `inline` and it is `text/plain` or `text/markdown`. A missing
    disposition counts as `inline`. Any other leaf is returned unchanged
    with flag false.
- **`rebuild_multipart`** (`TreeConverter.RebuildMultipart`) is the top-level
  assembly.
  - If nothing was converted, it returns the message itself.
  - Otherwise it returns a `multipart/alternative` envelope (section 5.1.4 of
    RFC 2046) whose children are `[original, converted]`.
  - It splits the original's header fields three ways:
    - `Bcc` (any case) is dropped;
    - names starting with `Content-` or `MIME` (exact case) stay on the
      original;
    - every other field is copied to the envelope and then deleted from the
      original.

Deletion (`del msg[name]`) ignores case, but the `Content-`/`MIME` prefix test
does not. So a `Content-Type` field next to a `content-type` field is lost from
both places (`Headers.CaseVariantLost`). The three-way split is exhaustive if
and only if no field name has spellings that fall into different groups
(`Headers.InnerWhenConsistent` and its converse
`Headers.ExhaustiveOnlyWhenConsistent`). The model follows the code here.

The renderer (`pypandoc.convert_text`) is a function-valued parameter of type
`RenderRequest -> Option<string>`. `None` stands for a renderer that raised.
Errors are a `Result` with three kinds: `RendererFailed`,
`SignatureNotUnpackable` and `SignedWithoutBody`. In the source, all three
propagate as uncaught exceptions.

Modules:

- `Wrappers`: `Option` and `Result`.
- `Strings`: `in`, `split`, `join`, `lower` and `startswith`, with Python's
  semantics.
- `Mime`: media types, header fields, the `Part` tree and `get`.
- `Headers`: the header loop of `rebuild_multipart`.
- `LeafConverter`: `convert_one`.
- `TreeConverter`: `convert_tree` and `rebuild_multipart`.

## Model

| member | source | states |
|---|---|---|
| `Strings.FindSpec` | muttdown/main.py:30 | `sep in s`: the search reports the first index where the separator occurs, and reports nothing only when it occurs nowhere |
| `Strings.SplitPieces` | muttdown/main.py:31 | `split` yields a single piece if and only if the separator is absent, and no piece contains the separator |
| `Strings.JoinSplit` | muttdown/main.py:31 | joining the pieces of a split with the same separator gives back the original string |
| `Strings.JoinLines` | muttdown/main.py:34 | `'<br />'.join(signature.split('\n'))` equals the signature with every newline replaced by `<br />` |
| `Mime.FirstNamed` | muttdown/main.py:67 | `get` finds the first field whose name matches in any case, and finds none exactly when no field matches |
| `LeafConverter.RenderArgs` | muttdown/main.py:27-29 | the extra arguments always start with `-s`; `-H css` follows if and only if a non-empty stylesheet was given |
| `LeafConverter.PreSignature` | muttdown/main.py:30-32 | the text sent to the renderer is a prefix of the body holding no delimiter; it is shorter than the body exactly when the body holds a delimiter, and then the first delimiter starts right after it |
| `LeafConverter.ConvertOne` | muttdown/main.py:23-39 | a successful conversion is a `text/html` leaf with no header fields; failures are only renderer failure or an unpackable split |
| `LeafConverter.ConvertWithoutSignature` | muttdown/main.py:36-38 | without a delimiter, the whole body is rendered and the renderer's output is the HTML body unchanged |
| `LeafConverter.ConvertWithSignature` | muttdown/main.py:30-35 | with one delimiter, only the text before it is rendered, and the result is that output, the signature opening, the signature with newlines as `<br />`, and the closing tags |
| `LeafConverter.ConvertRepeatedSignature` | muttdown/main.py:30-31 | a delimiter starting after the end of the first one makes the conversion fail with the unpacking error, before any rendering |
| `LeafConverter.RendererSeesOnlyPreSignature` | muttdown/main.py:30-37 | two renderers that agree on the one request for the pre-signature text (`md` to `html5`, with the arguments above) give the same result, so signature text never reaches the renderer |
| `LeafConverter.ConvertOneSucceeds` | muttdown/main.py:30-37 | conversion succeeds if and only if no delimiter starts after the end of the first one and the renderer accepts the pre-signature request |
| `LeafConverter.SignatureKeptFromRenderer` | muttdown/main.py:30-35 | for a one-line text, the delimiter and a two-line signature, the renderer sees the first line only, and the signature lines follow its output joined by one `<br />` |
| `TreeConverter.FirstBody` | muttdown/main.py:51-53 | finds the first child that is not `application/pgp-signature`, or reports that every child is a signature |
| `TreeConverter.CollectChildren` | muttdown/main.py:57-62 | the children's results, in order and one for one; the flag is the OR of their flags; the first failure is the result |
| `TreeConverter.ConvertTree` | muttdown/main.py:41-72 | an eligible leaf becomes exactly `convert_one`'s result with flag true, or fails with its error; an ineligible leaf comes back unchanged with flag false; a converted root, and every container, carries no header fields |
| `TreeConverter.ConvertSigned` | muttdown/main.py:48-53 | a signed node becomes the converted form of its first non-signature child, and fails when it has none |
| `TreeConverter.ConvertContainer` | muttdown/main.py:54-62 | another container becomes `multipart/<same subtype>` with as many children, child i being the converted child i; the flag is the OR of the children's flags |
| `TreeConverter.FlagMeansEligibleLeaf` | muttdown/main.py:41-72 | the flag is true if and only if an eligible leaf is reachable, entering signed nodes only through their first body |
| `TreeConverter.SucceedsWhenConvertible` | muttdown/main.py:41-72 | the tree conversion succeeds if and only if every reached eligible leaf converts and every reached signed node has a body |
| `TreeConverter.RebuildMultipart` | muttdown/main.py:75-90 | without a reachable eligible leaf, the message comes back unchanged; with one, an alternative envelope holds [original, converted], gets the fields of the header partition (the non-Bcc non-content fields, in their original order, repeats included), and the original keeps exactly the partition's surviving fields, all of them content fields |
| `Headers.FateOf` | muttdown/main.py:81-85 | Bcc in any case is dropped; otherwise `Content-`/`MIME` prefixes, matched case-sensitively, stay; everything else moves |
| `Headers.SurvivorsStep` | muttdown/main.py:81-85 | processing one more field of the snapshot deletes nothing for a content field, and otherwise deletes every field of its name in any case |
| `Headers.PartitionHeaders` | muttdown/main.py:79-85 | the delete-as-you-go loop over the snapshot yields exactly the envelope fields and the surviving original fields of the declarative partition |
| `Headers.EnvelopeMembers` | muttdown/main.py:83-84 | the envelope receives exactly the fields that are neither Bcc nor content fields |
| `Headers.InnerMembers` | muttdown/main.py:79-85 | the original keeps exactly the fields no deletion reached, and all of them are non-Bcc content fields, so no field is in both places |
| `Headers.FatesPartition` | muttdown/main.py:79-85 | dropped, kept and moved fields together are a permutation of the header list |
| `Headers.InnerWhenConsistent` | muttdown/main.py:79-85 | if no name has spellings in different groups, the original keeps exactly its content fields in order, and dropped + original + envelope is a permutation of the headers |
| `Headers.KeptFieldLost` | muttdown/main.py:81-85 | a content field next to a differently cased field that moves is deleted with it, so dropped + original + envelope is not a permutation of the headers |
| `Headers.ExhaustiveOnlyWhenConsistent` | muttdown/main.py:79-85 | if dropped + original + envelope is a permutation of the headers, no name has spellings in different groups |
| `Headers.CaseVariantLost` | muttdown/main.py:81-85 | with `Content-Type` and `content-type` fields, the lower-case one moves and both leave the original |
| `Headers.TypicalPartition` | muttdown/main.py:79-85 | for Bcc, Subject, Content-Type and From fields, the envelope gets Subject and From, the original keeps Content-Type, and Bcc is gone |

## Left out

- `main()` (muttdown/main.py:94-131) is argument parsing, reading stdin, parsing and serialising the message, and the `msmtp` subprocess. It is I/O plumbing.
- The renderer's behaviour is not modelled. `pypandoc.convert_text` is an arbitrary function parameter. Its failure is modelled only as the `RendererFailed` error.
- Python `email` library details are not modelled:
  - payload decoding and transfer encodings (the body is the raw payload string, as `get_payload(None, False)` returns it);
  - boundary generation;
  - the charset `MIMEText` picks;
  - the `Content-Type` and `MIME-Version` fields `MIMEMultipart` and `MIMEText` add to fresh parts.

  A fresh container or converted leaf carries no header fields in the model.
- The charset argument at muttdown/main.py:56 is not modelled. The code passes the charset as `MIMEMultipart`'s boundary argument, so the charset is not copied to the new container; the boundary only affects serialisation.
- Deriving the media type from the `Content-Type` field is not modelled. A part carries its parsed, lower-case `type/subtype` directly, as `get_content_type()` returns it.
- `Strings.Lower` folds only `A`-`Z`, where Python's `str.lower` folds all of Unicode. Header field names are printable US-ASCII (section 3.6.8 of RFC 5322), and there the two agree.
- The signature is appended without HTML escaping, because the code concatenates it as-is.
- Every error propagates at once. The code builds part of the new tree, and renders earlier eligible children, before a later child raises, but that partial tree is never returned; the model does not represent it or the renderer calls made for it.
- `UnicodeDammit`, `re` and `os.path` are imported by the source but never used.

=== FILE: headers.dfy ===
/**
 How the top-level assembly distributes the original message's header fields
 between the new `multipart/alternative` envelope and the original part it
 wraps. The loop walks a snapshot of the header list; for each field it
 either drops every field of that name (`Bcc`, compared without case),
 leaves it where it is (names beginning `Content-` or `MIME`, compared WITH
 case), or copies it to the envelope and then deletes every field of that
 name from the original. Deletion compares names without case.
 */
module Headers {
  import opened Strings
  import opened Mime

  /** Where a header field of the original message ends up. */
  datatype Fate = Dropped | KeptInside | Moved

  /** The blind-copy field, which must not survive the rebuild. */
  predicate IsBcc(name: string) {
    Lower(name) == "bcc"
  }

  /** Fields that describe the original part's own content stay with it. */
  predicate DescribesContent(name: string) {
    StartsWith(name, "Content-") || StartsWith(name, "MIME")
  }

  function FateOf(name: string): (f: Fate)
    ensures f == Dropped <==> IsBcc(name)
    ensures f == KeptInside <==> !IsBcc(name) && DescribesContent(name)
    ensures f == Moved <==> !IsBcc(name) && !DescribesContent(name)
  {
    if IsBcc(name) then Dropped
    else if DescribesContent(name) then KeptInside
    else Moved
  }

  /** The fields of `hs` whose fate is `f`, in their original order. */
  function Having(hs: seq<Header>, f: Fate): seq<Header> {
    if |hs| == 0 then []
    else
      var last := hs[|hs| - 1];
      Having(hs[..|hs| - 1], f) + (if FateOf(last.name) == f then [last] else [])
  }

  /** `del msg[name]`: every field called `name`, in any case, is removed. */
  function DeleteName(hs: seq<Header>, name: string): seq<Header> {
    if |hs| == 0 then []
    else
      var last := hs[|hs| - 1];
      DeleteName(hs[..|hs| - 1], name) + (if SameName(last.name, name) then [] else [last])
  }

  /** Field `h` is still on the original once the fields `ds` have been
      processed: none of them with the same name (in any case) deleted. */
  predicate Survives(h: Header, ds: seq<Header>) {
    forall d :: d in ds && SameName(d.name, h.name) ==> FateOf(d.name) == KeptInside
  }

  /** The fields of `hs` that survive processing `ds`, in order. */
  function Survivors(hs: seq<Header>, ds: seq<Header>): seq<Header> {
    if |hs| == 0 then []
    else
      var last := hs[|hs| - 1];
      Survivors(hs[..|hs| - 1], ds) + (if Survives(last, ds) then [last] else [])
  }

  /** The fields copied to the envelope. */
  function EnvelopeHeaders(hs: seq<Header>): seq<Header> {
    Having(hs, Moved)
  }

  /** The fields left on the original once the whole snapshot is processed. */
  function InnerHeaders(hs: seq<Header>): seq<Header> {
    Survivors(hs, hs)
  }

  lemma {:induction false} HavingMembers(hs: seq<Header>, f: Fate)
    ensures forall h :: h in Having(hs, f) <==> h in hs && FateOf(h.name) == f
    decreases |hs|
  {
    if |hs| > 0 {
      HavingMembers(hs[..|hs| - 1], f);
      assert hs == hs[..|hs| - 1] + [hs[|hs| - 1]];
    }
  }

  lemma {:induction false} SurvivorsMembers(hs: seq<Header>, ds: seq<Header>)
    ensures forall h :: h in Survivors(hs, ds) <==> h in hs && Survives(h, ds)
    decreases |hs|
  {
    if |hs| > 0 {
      SurvivorsMembers(hs[..|hs| - 1], ds);
      assert hs == hs[..|hs| - 1] + [hs[|hs| - 1]];
    }
  }

  /** The envelope receives exactly the fields that are neither `Bcc` nor
      content fields. */
  lemma EnvelopeMembers(hs: seq<Header>)
    ensures forall h :: h in EnvelopeHeaders(hs) <==> h in hs && !IsBcc(h.name) && !DescribesContent(h.name)
  {
    HavingMembers(hs, Moved);
  }

  /** The original keeps exactly the fields no deletion reached, and those are
      content fields that are not `Bcc`: nothing is both on the envelope and
      on the original, and `Bcc` is on neither. */
  lemma InnerMembers(hs: seq<Header>)
    ensures forall h :: h in InnerHeaders(hs) <==> h in hs && Survives(h, hs)
    ensures forall h :: h in InnerHeaders(hs) ==> !IsBcc(h.name) && DescribesContent(h.name)
  {
    SurvivorsMembers(hs, hs);
    forall h | h in InnerHeaders(hs) ensures !IsBcc(h.name) && DescribesContent(h.name) {
      assert SameName(h.name, h.name);
    }
  }

  /** Processing one more field: a content field deletes nothing, any other
      field deletes every field of its name. */
  lemma {:induction false} SurvivorsStep(hs: seq<Header>, ds: seq<Header>, d: Header)
    ensures Survivors(hs, ds + [d]) ==
              if FateOf(d.name) == KeptInside then Survivors(hs, ds)
              else DeleteName(Survivors(hs, ds), d.name)
    decreases |hs|
  {
    if |hs| > 0 {
      var init, last := hs[..|hs| - 1], hs[|hs| - 1];
      SurvivorsStep(init, ds, d);
      assert Survivors(hs, ds + [d]) == Survivors(init, ds + [d]) + (if Survives(last, ds + [d]) then [last] else []);
      assert Survives(last, ds + [d]) <==>
               Survives(last, ds) && (SameName(d.name, last.name) ==> FateOf(d.name) == KeptInside);
      if FateOf(d.name) != KeptInside {
        if Survives(last, ds) {
          var s := Survivors(init, ds) + [last];
          assert Survivors(hs, ds) == s;
          assert s[..|s| - 1] == Survivors(init, ds) && s[|s| - 1] == last;
          assert DeleteName(s, d.name)
              == DeleteName(Survivors(init, ds), d.name) + (if SameName(last.name, d.name) then [] else [last]);
          assert SameName(last.name, d.name) <==> SameName(d.name, last.name);
        } else {
          assert Survivors(hs, ds) == Survivors(init, ds) + [];
          assert Survivors(init, ds) + [] == Survivors(init, ds);
        }
      }
    }
  }

  /** The header loop of the top-level assembly, step by step, on the
      snapshot `hs`: `envelope` is what the envelope received, `inner` what
      is left on the original. */
  method PartitionHeaders(hs: seq<Header>) returns (envelope: seq<Header>, inner: seq<Header>)
    ensures envelope == EnvelopeHeaders(hs)
    ensures inner == InnerHeaders(hs)
  {
    envelope, inner := [], hs;
    var i := 0;
    assert hs[..0] == [];
    assert Survivors(hs, []) == hs by { AllSurvive(hs); }
    while i < |hs|
      invariant 0 <= i <= |hs|
      invariant envelope == Having(hs[..i], Moved)
      invariant inner == Survivors(hs, hs[..i])
    {
      var h := hs[i];
      assert hs[..i + 1] == hs[..i] + [h];
      SurvivorsStep(hs, hs[..i], h);
      match FateOf(h.name) {
        case Dropped =>
          inner := DeleteName(inner, h.name);
        case KeptInside =>
        case Moved =>
          envelope := envelope + [h];
          inner := DeleteName(inner, h.name);
      }
      i := i + 1;
    }
    assert hs[..i] == hs;
  }

  /** Before any field is processed, every field survives. */
  lemma {:induction false} AllSurvive(hs: seq<Header>)
    ensures Survivors(hs, []) == hs
    decreases |hs|
  {
    if |hs| > 0 {
      AllSurvive(hs[..|hs| - 1]);
      assert hs[..|hs| - 1] + [hs[|hs| - 1]] == hs;
    }
  }

  /** The three fates split the fields exactly: each field is counted once. */
  lemma {:induction false} FatesPartition(hs: seq<Header>)
    ensures multiset(Having(hs, Dropped)) + multiset(Having(hs, KeptInside)) + multiset(Having(hs, Moved))
              == multiset(hs)
    decreases |hs|
  {
    if |hs| > 0 {
      var init, last := hs[..|hs| - 1], hs[|hs| - 1];
      FatesPartition(init);
      assert hs == init + [last];
    }
  }

  /** No field name occurs in two spellings that fall into different fates. */
  predicate CaseConsistent(hs: seq<Header>) {
    forall d, h :: d in hs && h in hs && SameName(d.name, h.name) ==> FateOf(d.name) == FateOf(h.name)
  }

  /** When the fields agree with each other, the original keeps exactly its
      content fields, in order, so envelope, original and dropped fields
      together account for every field once. */
  lemma InnerWhenConsistent(hs: seq<Header>)
    requires CaseConsistent(hs)
    ensures InnerHeaders(hs) == Having(hs, KeptInside)
    ensures multiset(Having(hs, Dropped)) + multiset(InnerHeaders(hs)) + multiset(EnvelopeHeaders(hs))
              == multiset(hs)
  {
    SurvivorsMatchFate(hs, hs);
    FatesPartition(hs);
  }

  /** A content field next to a differently cased field that moves: the
      move's deletion removes the content field too, so it ends up nowhere
      and the three-way split is not exhaustive. */
  lemma KeptFieldLost(hs: seq<Header>, k: Header, o: Header)
    requires k in hs && o in hs && SameName(o.name, k.name)
    requires FateOf(k.name) == KeptInside && FateOf(o.name) == Moved
    ensures multiset(Having(hs, Dropped)) + multiset(InnerHeaders(hs)) + multiset(EnvelopeHeaders(hs))
              != multiset(hs)
  {
    assert !Survives(k, hs);
    assert k !in InnerHeaders(hs) by { SurvivorsMembers(hs, hs); }
    assert k !in Having(hs, Dropped) by { HavingMembers(hs, Dropped); }
    assert k !in EnvelopeHeaders(hs) by { HavingMembers(hs, Moved); }
    assert (multiset(Having(hs, Dropped)) + multiset(InnerHeaders(hs)) + multiset(EnvelopeHeaders(hs)))[k] == 0;
    assert multiset(hs)[k] >= 1;
  }

  /** The converse of `InnerWhenConsistent`: an exhaustive split means no
      field name has spellings that fall into different fates. */
  lemma ExhaustiveOnlyWhenConsistent(hs: seq<Header>)
    requires multiset(Having(hs, Dropped)) + multiset(InnerHeaders(hs)) + multiset(EnvelopeHeaders(hs))
               == multiset(hs)
    ensures CaseConsistent(hs)
  {
    forall d, h | d in hs && h in hs && SameName(d.name, h.name)
      ensures FateOf(d.name) == FateOf(h.name)
    {
      if FateOf(d.name) != FateOf(h.name) {
        if FateOf(d.name) == KeptInside && FateOf(h.name) == Moved {
          KeptFieldLost(hs, d, h);
        } else if FateOf(h.name) == KeptInside && FateOf(d.name) == Moved {
          KeptFieldLost(hs, h, d);
        }
      }
    }
  }

  lemma {:induction false} SurvivorsMatchFate(hs: seq<Header>, all: seq<Header>)
    requires forall h :: h in hs ==> h in all
    requires CaseConsistent(all)
    ensures Survivors(hs, all) == Having(hs, KeptInside)
    decreases |hs|
  {
    if |hs| > 0 {
      var init, last := hs[..|hs| - 1], hs[|hs| - 1];
      SurvivorsMatchFate(init, all);
      assert last in all;
      assert Survives(last, all) <==> FateOf(last.name) == KeptInside by {
        assert SameName(last.name, last.name);
      }
    }
  }

  /** A content field and a differently cased copy of it: the copy is not a
      content field (the prefix test honours case), so it moves to the
      envelope and its deletion, which ignores case, also removes the
      correctly cased field, which then ends up in neither place. */
  lemma CaseVariantLost()
    ensures var hs := [Header("Content-Type", "text/plain"), Header("content-type", "text/html")];
            && InnerHeaders(hs) == []
            && EnvelopeHeaders(hs) == [Header("content-type", "text/html")]
  {
    var a, b := Header("Content-Type", "text/plain"), Header("content-type", "text/html");
    var hs := [a, b];
    assert SameName(a.name, b.name) by { assert Lower(a.name) == Lower(b.name); }
    assert FateOf(a.name) == KeptInside by { assert a.name[..8] == "Content-"; }
    assert FateOf(b.name) == Moved by {
      assert b.name[..8][0] != "Content-"[0];
      assert b.name[..4][0] != "MIME"[0];
    }
    assert hs[..1] == [a] && [a][..0] == [];
    assert Survivors(hs, hs) == [] by {
      assert !Survives(a, hs) by { assert b in hs; }
      assert !Survives(b, hs) by { assert SameName(b.name, b.name); }
      assert Survivors([a], hs) == [];
    }
    assert Having(hs, Moved) == [b] by {
      assert Having([a], Moved) == [];
    }
  }

  /** The fields of a typical outgoing message. */
  const TypicalFields: seq<Header> :=
    [Header("Bcc", "x"), Header("Subject", "y"), Header("Content-Type", "z"), Header("From", "w")]

  lemma TypicalFates()
    ensures FateOf(TypicalFields[0].name) == Dropped
    ensures FateOf(TypicalFields[1].name) == Moved
    ensures FateOf(TypicalFields[2].name) == KeptInside
    ensures FateOf(TypicalFields[3].name) == Moved
  {
    var hs := TypicalFields;
    assert FateOf(hs[0].name) == Dropped by { assert Lower(hs[0].name) == "bcc"; }
    assert FateOf(hs[1].name) == Moved by { assert hs[1].name[..4][0] != "MIME"[0]; }
    assert FateOf(hs[2].name) == KeptInside by { assert hs[2].name[..8] == "Content-"; }
    assert FateOf(hs[3].name) == Moved by { assert hs[3].name[..4][0] != "MIME"[0]; }
  }

  lemma TypicalEnvelope()
    ensures EnvelopeHeaders(TypicalFields) == [TypicalFields[1], TypicalFields[3]]
  {
    var hs := TypicalFields;
    TypicalFates();
    var p1, p2, p3 := hs[..1], hs[..2], hs[..3];
    assert p1[..0] == [] && p2[..1] == p1 && p3[..2] == p2 && hs[..3] == p3;
    assert Having(p1, Moved) == [];
    assert Having(p2, Moved) == [hs[1]];
    assert Having(p3, Moved) == [hs[1]];
  }

  lemma TypicalInner()
    ensures InnerHeaders(TypicalFields) == [TypicalFields[2]]
  {
    var hs := TypicalFields;
    TypicalFates();
    var p1, p2, p3 := hs[..1], hs[..2], hs[..3];
    assert p1[..0] == [] && p2[..1] == p1 && p3[..2] == p2 && hs[..3] == p3;
    assert !Survives(hs[0], hs) by { assert SameName(hs[0].name, hs[0].name); }
    assert !Survives(hs[1], hs) by { assert SameName(hs[1].name, hs[1].name); }
    assert !Survives(hs[3], hs) by { assert SameName(hs[3].name, hs[3].name); }
    assert Survives(hs[2], hs) by {
      forall d | d in hs && SameName(d.name, hs[2].name) ensures FateOf(d.name) == KeptInside {
        assert |Lower(d.name)| == |d.name| && |Lower(hs[2].name)| == 12;
      }
    }
    assert Survivors(p1, hs) == [];
    assert Survivors(p2, hs) == [];
    assert Survivors(p3, hs) == [hs[2]];
  }

  /** A message with `Bcc`, `Subject`, `Content-Type` and `From` fields: the
      envelope gets `Subject` and `From`, the original keeps `Content-Type`,
      `Bcc` goes nowhere. */
  lemma TypicalPartition()
    ensures EnvelopeHeaders(TypicalFields) == [TypicalFields[1], TypicalFields[3]]
    ensures InnerHeaders(TypicalFields) == [TypicalFields[2]]
  {
    TypicalEnvelope();
    TypicalInner();
  }
}

=== FILE: leaf_converter.dfy ===
/**
 The leaf converter: renders one text part from markdown to an HTML part.
 A trailing signature, introduced by the usenet delimiter line `-- `
 (see section 4.3 of RFC 3676), is kept out of the renderer and appended
 verbatim, one line per `<br />`.
 */
module LeafConverter {
  import opened Wrappers
  import opened Strings
  import opened Mime

  /** A line holding only `-- `, with the newlines around it. */
  const SignatureDelimiter: string := "\n-- \n"
  const SignatureOpen: string := "\n<div class=\"signature\" style=\"font-size: small\"><p>-- <br />"
  const LineBreak: string := "<br />"
  const SignatureClose: string := "</p></div>"

  /** One invocation of the external markdown renderer. */
  datatype RenderRequest = RenderRequest(source: string, inputFormat: string, outputFormat: string, extraArgs: seq<string>)

  /** The renderer, opaque to the model; `None` stands for a renderer that raised. */
  type Renderer = RenderRequest -> Option<string>

  /** The renderer's extra arguments: always a standalone document, and the
      stylesheet linked into its header when one was given and is non-empty. */
  function RenderArgs(css: Option<string>): (args: seq<string>)
    ensures |args| >= 1 && args[0] == "-s"
    ensures |args| > 1 <==> css.Some? && css.value != ""
    ensures |args| > 1 ==> args[1..] == ["-H", css.value]
  {
    if css.Some? && css.value != "" then ["-s", "-H", css.value] else ["-s"]
  }

  /** Asks the renderer for an HTML5 document made from markdown `text`. */
  function Render(render: Renderer, text: string, css: Option<string>): Result<string, ConversionError> {
    match render(RenderRequest(text, "md", "html5", RenderArgs(css)))
    case None => Failure(RendererFailed)
    case Some(html) => Success(html)
  }

  /** The converted part: an HTML leaf with no header fields of its own. */
  function HtmlPart(html: string): Part {
    Leaf(TextHtml, [], html)
  }

  /** `convert_one`: the body is split at the signature delimiter, the text
      before it is rendered, and the signature lines are appended as they are. */
  function ConvertOne(p: Part, css: Option<string>, render: Renderer): (r: Result<Part, ConversionError>)
    requires p.Leaf?
    ensures r.Success? ==> r.value.Leaf? && r.value.ctype == TextHtml && r.value.headers == []
    ensures r.Failure? ==> r.error == RendererFailed || r.error == SignatureNotUnpackable
  {
    var text := p.body;
    if Find(text, SignatureDelimiter).Some? then
      var pieces := Split(text, SignatureDelimiter);
      if |pieces| != 2 then Failure(SignatureNotUnpackable)
      else
        var md :- Render(render, pieces[0], css);
        Success(HtmlPart(md + SignatureOpen + Join(LineBreak, Split(pieces[1], "\n")) + SignatureClose))
    else
      var md :- Render(render, text, css);
      Success(HtmlPart(md))
  }

  /** The text handed to the renderer: everything before the first signature
      delimiter, or the whole body when there is none. */
  function PreSignature(body: string): (pre: string)
    ensures StartsWith(body, pre)
    ensures !Contains(pre, SignatureDelimiter)
    ensures pre != body ==> StartsWith(body[|pre|..], SignatureDelimiter)
    ensures pre != body <==> Find(body, SignatureDelimiter) == Some(|pre|)
  {
    match Find(body, SignatureDelimiter)
    case None => body
    case Some(k) =>
      NoneBeforeFirst(body, SignatureDelimiter, k);
      FindSpec(body, SignatureDelimiter);
      assert body[k..][..|SignatureDelimiter|] == body[k..k + |SignatureDelimiter|];
      body[..k]
  }

  /** The only renderer call `ConvertOne` can make. */
  function RequestFor(body: string, css: Option<string>): RenderRequest {
    RenderRequest(PreSignature(body), "md", "html5", RenderArgs(css))
  }

  /** A body without the delimiter is rendered whole, and the renderer's
      output is the converted part's body unchanged. */
  lemma ConvertWithoutSignature(p: Part, css: Option<string>, render: Renderer)
    requires p.Leaf? && !Contains(p.body, SignatureDelimiter)
    ensures ConvertOne(p, css, render) ==
              match render(RenderRequest(p.body, "md", "html5", RenderArgs(css)))
              case None => Failure(RendererFailed)
              case Some(html) => Success(Leaf(TextHtml, [], html))
  {
  }

  /** A body with one delimiter (the first occurrence at `k`, none after it):
      only the text before it is rendered, and the signature after it follows
      the rendered text inside the signature block, its newlines replaced by
      line breaks. */
  lemma ConvertWithSignature(p: Part, css: Option<string>, render: Renderer, k: nat)
    requires p.Leaf? && Find(p.body, SignatureDelimiter) == Some(k)
    requires !Contains(p.body[k + |SignatureDelimiter|..], SignatureDelimiter)
    ensures var signature := p.body[k + |SignatureDelimiter|..];
            ConvertOne(p, css, render) ==
              match render(RenderRequest(p.body[..k], "md", "html5", RenderArgs(css)))
              case None => Failure(RendererFailed)
              case Some(html) =>
                Success(Leaf(TextHtml, [], html + SignatureOpen + ReplaceNewlines(signature, LineBreak) + SignatureClose))
  {
    var signature := p.body[k + |SignatureDelimiter|..];
    SplitStep(p.body, SignatureDelimiter, k);
    assert Split(p.body, SignatureDelimiter) == [p.body[..k], signature];
    JoinLines(signature, LineBreak);
  }

  /** A delimiter starting after the end of the first one makes the two-way
      unpacking fail, before the renderer is asked anything. */
  lemma ConvertRepeatedSignature(p: Part, css: Option<string>, render: Renderer, k: nat)
    requires p.Leaf? && Find(p.body, SignatureDelimiter) == Some(k)
    requires Contains(p.body[k + |SignatureDelimiter|..], SignatureDelimiter)
    ensures ConvertOne(p, css, render) == Failure(SignatureNotUnpackable)
  {
    SplitStep(p.body, SignatureDelimiter, k);
  }

  /** The result depends on the renderer only through `RequestFor`: two
      renderers that agree on that one request give the same result, so the
      signature text is never rendered. */
  lemma RendererSeesOnlyPreSignature(p: Part, css: Option<string>, r1: Renderer, r2: Renderer)
    requires p.Leaf? && r1(RequestFor(p.body, css)) == r2(RequestFor(p.body, css))
    ensures ConvertOne(p, css, r1) == ConvertOne(p, css, r2)
  {
    match Find(p.body, SignatureDelimiter)
    case None =>
    case Some(k) =>
      SplitStep(p.body, SignatureDelimiter, k);
  }

  /** No delimiter starts after the end of the first one, so `split` gives
      at most two pieces. Overlapping occurrences, as in `"\n-- \n-- \n"`,
      do not count as a second delimiter. */
  predicate NoLaterDelimiter(body: string) {
    match Find(body, SignatureDelimiter)
    case None => true
    case Some(k) => !Contains(body[k + |SignatureDelimiter|..], SignatureDelimiter)
  }

  /** The conversion fails exactly when a delimiter starts after the end of
      the first one, or the renderer fails on the one request it is sent. */
  lemma ConvertOneSucceeds(p: Part, css: Option<string>, render: Renderer)
    requires p.Leaf?
    ensures ConvertOne(p, css, render).Success? <==>
              NoLaterDelimiter(p.body) && render(RequestFor(p.body, css)).Some?
  {
    match Find(p.body, SignatureDelimiter)
    case None =>
    case Some(k) =>
      SplitStep(p.body, SignatureDelimiter, k);
      SplitPieces(p.body[k + |SignatureDelimiter|..], SignatureDelimiter);
  }

  /** Two single lines joined by a newline hold no signature delimiter, which
      needs two newlines. */
  lemma TwoLinesHoldNoDelimiter(a: string, b: string)
    requires !Contains(a, "\n") && !Contains(b, "\n")
    ensures !Contains(a + "\n" + b, SignatureDelimiter)
  {
    var s := a + "\n" + b;
    LacksChar(a, '\n');
    LacksChar(b, '\n');
    assert forall i :: 0 <= i < |s| && i != |a| ==> s[i] != '\n';
    forall j: nat ensures !OccursAt(s, SignatureDelimiter, j) {
      if j + 5 <= |s| {
        if j == |a| {
          assert s[j..j + 5][4] == s[j + 4] != '\n';
        } else {
          assert s[j..j + 5][0] == s[j] != '\n';
        }
      }
    }
    AbsentWhenNowhere(s, SignatureDelimiter);
  }

  /** In a one-line text, the delimiter and a two-line signature, the
      delimiter is found right after the first line and not again. */
  lemma OneSignatureDelimiter(pre: string, a: string, b: string)
    requires !Contains(pre, "\n") && !Contains(a, "\n") && !Contains(b, "\n")
    ensures var body := pre + SignatureDelimiter + a + "\n" + b;
            && Find(body, SignatureDelimiter) == Some(|pre|)
            && body[..|pre|] == pre
            && body[|pre| + |SignatureDelimiter|..] == a + "\n" + b
            && !Contains(body[|pre| + |SignatureDelimiter|..], SignatureDelimiter)
  {
    var body := pre + SignatureDelimiter + a + "\n" + b;
    var k := |pre|;
    LacksChar(pre, '\n');
    assert body == pre + SignatureDelimiter + (a + "\n" + b);
    assert body[k..k + 5] == SignatureDelimiter;
    forall j: nat | j < k ensures !OccursAt(body, SignatureDelimiter, j) {
      assert body[j..j + 5][0] == body[j] == pre[j];
    }
    FindFirst(body, SignatureDelimiter, k);
    TwoLinesHoldNoDelimiter(a, b);
  }

  /** A one-line body, the delimiter, and a two-line signature: the renderer
      is asked about the first line only, and the two signature lines follow
      its output inside the signature block, separated by one line break. */
  lemma SignatureKeptFromRenderer(pre: string, a: string, b: string, css: Option<string>, render: Renderer)
    requires !Contains(pre, "\n") && !Contains(a, "\n") && !Contains(b, "\n")
    ensures var p := Leaf(TextPlain, [], pre + SignatureDelimiter + a + "\n" + b);
            ConvertOne(p, css, render) ==
              match render(RenderRequest(pre, "md", "html5", RenderArgs(css)))
              case None => Failure(RendererFailed)
              case Some(html) => Success(HtmlPart(html + SignatureOpen + a + LineBreak + b + SignatureClose))
  {
    var p := Leaf(TextPlain, [], pre + SignatureDelimiter + a + "\n" + b);
    OneSignatureDelimiter(pre, a, b);
    ConvertWithSignature(p, css, render, |pre|);
    assert ReplaceNewlines(a + "\n" + b, LineBreak) == a + LineBreak + b by {
      ReplaceNewlinesAtLineEnd(a, b, LineBreak);
      ReplaceNewlinesFree(b, LineBreak);
    }
    match render(RenderRequest(pre, "md", "html5", RenderArgs(css)))
    case None =>
    case Some(html) =>
      assert html + SignatureOpen + (a + LineBreak + b) + SignatureClose
          == html + SignatureOpen + a + LineBreak + b + SignatureClose;
  }
}

=== FILE: mime.dfy ===
/**
 The MIME tree as the converter sees it once a message has been parsed: a node
 is either a leaf carrying its raw (still transfer-encoded) payload text, or a
 container whose payload is an ordered list of child parts.
 */
module Mime {
  import opened Wrappers
  import opened Strings

  /** A parsed, lower-case `type/subtype` pair, as `get_content_type()` yields it. */
  datatype MediaType = MediaType(main: string, sub: string)

  const TextPlain := MediaType("text", "plain")
  const TextMarkdown := MediaType("text", "markdown")
  const TextHtml := MediaType("text", "html")
  const MultipartSigned := MediaType("multipart", "signed")
  const MultipartAlternative := MediaType("multipart", "alternative")
  const PgpSignature := MediaType("application", "pgp-signature")

  /** One header field; names keep the case they were written in. */
  datatype Header = Header(name: string, value: string)

  /** A node of the MIME tree. `Multi` is any part whose payload is a list of
      parts: every multipart type, and also message types that wrap
      an enclosed message. */
  datatype Part =
    | Leaf(ctype: MediaType, headers: seq<Header>, body: string)
    | Multi(ctype: MediaType, headers: seq<Header>, children: seq<Part>)

  /** Why a conversion aborted. */
  datatype ConversionError =
    | RendererFailed          // the markdown renderer raised
    | SignatureNotUnpackable  // a delimiter starts after the end of the first one, so `split` gives three or more pieces
    | SignedWithoutBody       // a multipart/signed node has only signature children

  /** Header names are compared without regard to case. */
  predicate SameName(a: string, b: string) {
    Lower(a) == Lower(b)
  }

  /** The position of the first header called `name` (in any case), if there is one. */
  function FirstNamed(hs: seq<Header>, name: string): (r: Option<nat>)
    ensures r.None? <==> forall i :: 0 <= i < |hs| ==> !SameName(hs[i].name, name)
    ensures r.Some? ==> r.value < |hs| && SameName(hs[r.value].name, name)
    ensures r.Some? ==> forall j :: 0 <= j < r.value ==> !SameName(hs[j].name, name)
  {
    if |hs| == 0 then None
    else if SameName(hs[0].name, name) then Some(0)
    else
      match FirstNamed(hs[1..], name)
      case None => None
      case Some(i) => Some(i + 1)
  }

  /** `get(name)`: the value of the first header called `name`, if any. */
  function GetHeader(hs: seq<Header>, name: string): Option<string> {
    match FirstNamed(hs, name)
    case None => None
    case Some(i) => Some(hs[i].value)
  }

  /** The part's `Content-Disposition` value exactly as written, `inline` when absent. */
  function Disposition(p: Part): string {
    GetHeader(p.headers, "Content-Disposition").GetOr("inline")
  }
}

=== FILE: strings.dfy ===
/**
 The string operations the converter relies on, with the semantics of
 Python's `in`, `str.split(sep)`, `sep.join(parts)`, `str.lower()`
 and `str.startswith(prefix)`.
 */
module Strings {
  import opened Wrappers

  /** `sep` occurs in `s` starting at index `i`. */
  predicate OccursAt(s: string, sep: string, i: nat) {
    i + |sep| <= |s| && s[i..i + |sep|] == sep
  }

  /** `sep in s`. */
  predicate Contains(s: string, sep: string) {
    Find(s, sep).Some?
  }

  /** The index of the first occurrence of `sep` in `s`, if any. */
  function Find(s: string, sep: string): (r: Option<nat>)
    ensures r.Some? ==> r.value + |sep| <= |s|
    decreases |s|
  {
    if |s| < |sep| then None
    else if s[..|sep|] == sep then Some(0)
    else
      match Find(s[1..], sep)
      case None => None
      case Some(k) => Some(k + 1)
  }

  /** `Find` reports the first occurrence, and nothing only when there is none. */
  lemma {:induction false} FindSpec(s: string, sep: string)
    ensures Find(s, sep).Some? ==> OccursAt(s, sep, Find(s, sep).value)
    ensures Find(s, sep).Some? ==> forall j: nat :: j < Find(s, sep).value ==> !OccursAt(s, sep, j)
    ensures Find(s, sep).None? ==> forall j: nat :: !OccursAt(s, sep, j)
    decreases |s|
  {
    if |s| < |sep| {
    } else if s[..|sep|] == sep {
      assert OccursAt(s, sep, 0);
    } else {
      FindSpec(s[1..], sep);
      assert !OccursAt(s, sep, 0);
      forall j: nat | 0 < j && OccursAt(s, sep, j) ensures OccursAt(s[1..], sep, j - 1) {
        assert s[1..][j - 1..j - 1 + |sep|] == s[j..j + |sep|];
      }
      match Find(s[1..], sep)
      case None =>
      case Some(k) =>
        assert s[1..][k..k + |sep|] == s[k + 1..k + 1 + |sep|];
    }
  }

  /** If the first occurrence is at `k`, `Find` reports `k`. */
  lemma FindFirst(s: string, sep: string, k: nat)
    requires OccursAt(s, sep, k) && forall j: nat :: j < k ==> !OccursAt(s, sep, j)
    ensures Find(s, sep) == Some(k)
  {
    FindSpec(s, sep);
  }

  /** A string that does not contain the one-character string `[c]` holds `c` nowhere. */
  lemma LacksChar(s: string, c: char)
    requires !Contains(s, [c])
    ensures forall i :: 0 <= i < |s| ==> s[i] != c
  {
    FindSpec(s, [c]);
    forall i | 0 <= i < |s| ensures s[i] != c {
      assert !OccursAt(s, [c], i);
      assert s[i..i + 1][0] == s[i];
    }
  }

  /** A string in which the separator occurs nowhere does not contain it. */
  lemma AbsentWhenNowhere(s: string, sep: string)
    requires forall j: nat :: !OccursAt(s, sep, j)
    ensures !Contains(s, sep)
  {
    FindSpec(s, sep);
  }

  /** `s.split(sep)` for a non-empty separator: the maximal pieces between
      successive non-overlapping occurrences, scanning left to right. */
  function Split(s: string, sep: string): (r: seq<string>)
    requires |sep| > 0
    ensures |r| >= 1
    decreases |s|
  {
    match Find(s, sep)
    case None => [s]
    case Some(k) => [s[..k]] + Split(s[k + |sep|..], sep)
  }

  /** `sep.join(parts)`. */
  function Join(sep: string, parts: seq<string>): string {
    if |parts| == 0 then ""
    else if |parts| == 1 then parts[0]
    else parts[0] + sep + Join(sep, parts[1..])
  }

  /** At the first occurrence `k` of `sep`, the string is the piece before it,
      the separator, and the rest. */
  lemma SplitAtFirst(s: string, sep: string, k: nat)
    requires |sep| > 0 && Find(s, sep) == Some(k)
    ensures s == s[..k] + sep + s[k + |sep|..]
  {
    FindSpec(s, sep);
    assert s[k..k + |sep|] == sep;
    assert s == s[..k] + s[k..k + |sep|] + s[k + |sep|..];
  }

  /** Splitting continues on the text after the first occurrence. */
  lemma SplitStep(s: string, sep: string, k: nat)
    requires |sep| > 0 && Find(s, sep) == Some(k)
    ensures Split(s, sep) == [s[..k]] + Split(s[k + |sep|..], sep)
  {
  }

  /** The text before the first occurrence holds no occurrence. */
  lemma NoneBeforeFirst(s: string, sep: string, k: nat)
    requires |sep| > 0 && Find(s, sep) == Some(k)
    ensures !Contains(s[..k], sep)
  {
    FindSpec(s, sep);
    forall j: nat ensures !OccursAt(s[..k], sep, j) {
      if j + |sep| <= k {
        assert j < k && !OccursAt(s, sep, j);
        assert s[..k][j..j + |sep|] == s[j..j + |sep|];
      }
    }
    AbsentWhenNowhere(s[..k], sep);
  }

  /** The string is split in one piece exactly when it does not contain the
      separator, and no piece contains the separator. */
  lemma {:induction false} SplitPieces(s: string, sep: string)
    requires |sep| > 0
    ensures |Split(s, sep)| == 1 <==> !Contains(s, sep)
    ensures forall i :: 0 <= i < |Split(s, sep)| ==> !Contains(Split(s, sep)[i], sep)
    decreases |s|
  {
    match Find(s, sep)
    case None =>
    case Some(k) =>
      var rest := s[k + |sep|..];
      SplitStep(s, sep, k);
      NoneBeforeFirst(s, sep, k);
      SplitPieces(rest, sep);
      forall i | 0 <= i < |Split(s, sep)| ensures !Contains(Split(s, sep)[i], sep) {
        if i > 0 { assert Split(s, sep)[i] == Split(rest, sep)[i - 1]; }
      }
  }

  /** Splitting and re-joining with the same separator gives back the string. */
  lemma {:induction false} JoinSplit(s: string, sep: string)
    requires |sep| > 0
    ensures Join(sep, Split(s, sep)) == s
    decreases |s|
  {
    match Find(s, sep)
    case None =>
    case Some(k) =>
      var rest := s[k + |sep|..];
      var tail := Split(rest, sep);
      SplitAtFirst(s, sep, k);
      SplitStep(s, sep, k);
      assert ([s[..k]] + tail)[1..] == tail;
      assert Join(sep, Split(s, sep)) == s[..k] + sep + Join(sep, tail);
      JoinSplit(rest, sep);
  }

  /** The string with every newline replaced by `rep`, one character at a time. */
  function ReplaceNewlines(s: string, rep: string): string
    decreases |s|
  {
    if |s| == 0 then ""
    else (if s[0] == '\n' then rep else [s[0]]) + ReplaceNewlines(s[1..], rep)
  }

  lemma {:induction false} ReplaceNewlinesAppend(a: string, b: string, rep: string)
    ensures ReplaceNewlines(a + b, rep) == ReplaceNewlines(a, rep) + ReplaceNewlines(b, rep)
    decreases |a|
  {
    if |a| > 0 {
      assert (a + b)[0] == a[0];
      assert (a + b)[1..] == a[1..] + b;
      ReplaceNewlinesAppend(a[1..], b, rep);
    } else {
      assert a + b == b;
    }
  }

  lemma {:induction false} ReplaceNewlinesFree(s: string, rep: string)
    requires !Contains(s, "\n")
    ensures ReplaceNewlines(s, rep) == s
    decreases |s|
  {
    if |s| > 0 {
      FindSpec(s, "\n");
      assert s[0] != '\n' by { assert !OccursAt(s, "\n", 0); assert s[0..1][0] == s[0]; }
      forall j: nat ensures !OccursAt(s[1..], "\n", j) {
        if j + 1 < |s| {
          assert s[1..][j..j + 1] == s[j + 1..j + 2];
          assert !OccursAt(s, "\n", j + 1);
        }
      }
      AbsentWhenNowhere(s[1..], "\n");
      ReplaceNewlinesFree(s[1..], rep);
    }
  }

  /** Replacing newlines in a line, a newline and the rest. */
  lemma ReplaceNewlinesAtLineEnd(line: string, rest: string, rep: string)
    requires !Contains(line, "\n")
    ensures ReplaceNewlines(line + "\n" + rest, rep) == line + rep + ReplaceNewlines(rest, rep)
  {
    ReplaceNewlinesFree(line, rep);
    assert line + "\n" + rest == line + ("\n" + rest);
    ReplaceNewlinesAppend(line, "\n" + rest, rep);
    assert ("\n" + rest)[1..] == rest;
  }

  /** Joining the lines of `s` with `rep` is the same as replacing each newline by `rep`. */
  lemma {:induction false} JoinLines(s: string, rep: string)
    ensures Join(rep, Split(s, "\n")) == ReplaceNewlines(s, rep)
    decreases |s|
  {
    match Find(s, "\n")
    case None =>
      ReplaceNewlinesFree(s, rep);
    case Some(k) =>
      var line, rest := s[..k], s[k + 1..];
      assert Join(rep, Split(s, "\n")) == line + rep + Join(rep, Split(rest, "\n")) by {
        SplitStep(s, "\n", k);
        assert ([line] + Split(rest, "\n"))[1..] == Split(rest, "\n");
      }
      assert ReplaceNewlines(s, rep) == line + rep + ReplaceNewlines(rest, rep) by {
        SplitAtFirst(s, "\n", k);
        NoneBeforeFirst(s, "\n", k);
        ReplaceNewlinesAtLineEnd(line, rest, rep);
      }
      JoinLines(rest, rep);
  }

  /** ASCII case folding of one character. */
  function LowerChar(c: char): char {
    if 'A' <= c <= 'Z' then (c as int + 32) as char else c
  }

  /** `s.lower()` restricted to ASCII letters. */
  function Lower(s: string): string {
    seq(|s|, i requires 0 <= i < |s| => LowerChar(s[i]))
  }

  /** `s.startswith(prefix)`, case-sensitive. */
  predicate StartsWith(s: string, prefix: string) {
    |prefix| <= |s| && s[..|prefix|] == prefix
  }
}

=== FILE: tree_converter.dfy ===
/**
 The tree rebuilder: a structural recursion over the MIME tree that converts
 every eligible text leaf, rebuilds ordinary containers around their
 converted children, unwraps `multipart/signed` nodes (section 2.1 of
 RFC 1847) to their signed body, and reports whether anything was
 converted; and the top-level assembly that wraps the original and the
 converted tree in a `multipart/alternative` envelope (section 5.1.4 of
 RFC 2046) when something was.
 */
module TreeConverter {
  import opened Wrappers
  import opened Strings
  import opened Mime
  import opened Headers
  import opened LeafConverter

  /** A leaf is converted when it is displayed inline (the disposition value
      must be exactly `inline`; a missing field counts as `inline`) and is
      plain text or markdown. */
  predicate Eligible(p: Part) {
    p.Leaf? && Disposition(p) == "inline" && (p.ctype == TextPlain || p.ctype == TextMarkdown)
  }

  /** The first child that is not the detached signature. */
  function FirstBody(cs: seq<Part>): (r: Option<nat>)
    ensures r.None? <==> forall i :: 0 <= i < |cs| ==> cs[i].ctype == PgpSignature
    ensures r.Some? ==> r.value < |cs| && cs[r.value].ctype != PgpSignature
    ensures r.Some? ==> forall j :: 0 <= j < r.value ==> cs[j].ctype == PgpSignature
  {
    if |cs| == 0 then None
    else if cs[0].ctype != PgpSignature then Some(0)
    else
      match FirstBody(cs[1..])
      case None => None
      case Some(i) => Some(i + 1)
  }

  /** Gathers the children's results in order: the first failure aborts, and
      otherwise the flags are or-ed together. */
  function CollectChildren(rs: seq<Result<(Part, bool), ConversionError>>): (r: Result<(seq<Part>, bool), ConversionError>)
    ensures r.Success? <==> forall i :: 0 <= i < |rs| ==> rs[i].Success?
    ensures r.Success? ==> |r.value.0| == |rs|
    ensures r.Success? ==> forall i :: 0 <= i < |rs| ==> r.value.0[i] == rs[i].value.0
    ensures r.Success? ==> (r.value.1 <==> exists i :: 0 <= i < |rs| && rs[i].value.1)
    ensures r.Failure? ==> exists i :: 0 <= i < |rs| && rs[i] == Failure(r.error)
                                       && forall j :: 0 <= j < i ==> rs[j].Success?
  {
    if |rs| == 0 then Success(([], false))
    else
      match rs[0]
      case Failure(e) => Failure(e)
      case Success(first) =>
        match CollectChildren(rs[1..])
        case Failure(e) =>
          ghost var i :| 0 <= i < |rs[1..]| && rs[1..][i] == Failure(e) && forall j :: 0 <= j < i ==> rs[1..][j].Success?;
          assert rs[i + 1] == Failure(e) && forall j :: 0 <= j < i + 1 ==> rs[j].Success?;
          Failure(e)
        case Success(rest) =>
          assert (exists i :: 0 <= i < |rs| && rs[i].value.1) <==> first.1 || exists i :: 0 <= i < |rs[1..]| && rs[1..][i].value.1 by {
            if exists i :: 0 <= i < |rs| && rs[i].value.1 {
              var i :| 0 <= i < |rs| && rs[i].value.1;
              if i > 0 { assert rs[1..][i - 1] == rs[i]; }
            }
          }
          Success(([first.0] + rest.0, first.1 || rest.1))
  }

  /** `convert_tree`: the converted tree and whether any leaf was converted. */
  function ConvertTree(p: Part, css: Option<string>, render: Renderer): (r: Result<(Part, bool), ConversionError>)
    ensures p.Leaf? && !Eligible(p) ==> r == Success((p, false))
    ensures r.Success? && p.Leaf? ==> (r.value.1 <==> Eligible(p))
    ensures r.Success? && r.value.1 ==> r.value.0.headers == []
    ensures r.Success? && r.value.0.Multi? ==> r.value.0.headers == [] && r.value.0.ctype.main == "multipart"
    ensures r.Success? && r.value.1 && r.value.0.Leaf? ==> r.value.0.ctype == TextHtml
    ensures Eligible(p) ==>
              r == match ConvertOne(p, css, render)
                   case Success(html) => Success((html, true))
                   case Failure(e) => Failure(e)
    decreases p
  {
    match p
    case Leaf(_, _, _) =>
      if Eligible(p) then
        var html :- ConvertOne(p, css, render);
        Success((html, true))
      else
        Success((p, false))
    case Multi(ctype, _, children) =>
      if ctype == MultipartSigned then
        match FirstBody(children)
        case None => Failure(SignedWithoutBody)
        case Some(i) => ConvertTree(children[i], css, render)
      else
        var results := seq(|children|, i requires 0 <= i < |children| => ConvertTree(children[i], css, render));
        var collected :- CollectChildren(results);
        Success((Multi(MediaType("multipart", ctype.sub), [], collected.0), collected.1))
  }

  /** Some eligible leaf can be reached from `p`, entering a signed node
      only through its first non-signature child. */
  ghost predicate HasEligible(p: Part)
    decreases p
  {
    match p
    case Leaf(_, _, _) => Eligible(p)
    case Multi(ctype, _, cs) =>
      if ctype == MultipartSigned then
        exists i :: 0 <= i < |cs| && IsFirstBody(cs, i) && HasEligible(cs[i])
      else
        exists i :: 0 <= i < |cs| && HasEligible(cs[i])
  }

  /** Child `i` is the first one that is not the detached signature. */
  predicate IsFirstBody(cs: seq<Part>, i: int) {
    0 <= i < |cs| && cs[i].ctype != PgpSignature && forall j :: 0 <= j < i ==> cs[j].ctype == PgpSignature
  }

  lemma FirstBodyUnique(cs: seq<Part>, i: int)
    requires IsFirstBody(cs, i)
    ensures FirstBody(cs) == Some(i)
  {
  }

  /** A signed node is replaced by the converted form of its first
      non-signature child; with no such child the conversion fails. */
  lemma ConvertSigned(p: Part, css: Option<string>, render: Renderer)
    requires p.Multi? && p.ctype == MultipartSigned
    ensures forall i :: IsFirstBody(p.children, i) ==> ConvertTree(p, css, render) == ConvertTree(p.children[i], css, render)
    ensures (forall i :: 0 <= i < |p.children| ==> p.children[i].ctype == PgpSignature)
              ==> ConvertTree(p, css, render) == Failure(SignedWithoutBody)
  {
    forall i | IsFirstBody(p.children, i) ensures ConvertTree(p, css, render) == ConvertTree(p.children[i], css, render) {
      FirstBodyUnique(p.children, i);
    }
  }

  /** Any other container is rebuilt, with no header fields, around its
      converted children in their original order; the flag is the or of the
      children's flags; the first failing child's error is the result. */
  lemma ConvertContainer(p: Part, css: Option<string>, render: Renderer)
    requires p.Multi? && p.ctype != MultipartSigned
    ensures var r := ConvertTree(p, css, render);
            && (r.Success? <==> forall i :: 0 <= i < |p.children| ==> ConvertTree(p.children[i], css, render).Success?)
            && (r.Success? ==>
                  && r.value.0.Multi?
                  && r.value.0.ctype == MediaType("multipart", p.ctype.sub)
                  && r.value.0.headers == []
                  && |r.value.0.children| == |p.children|
                  && (forall i :: 0 <= i < |p.children| ==>
                        r.value.0.children[i] == ConvertTree(p.children[i], css, render).value.0)
                  && (r.value.1 <==> exists i :: 0 <= i < |p.children| && ConvertTree(p.children[i], css, render).value.1))
            && (r.Failure? ==> exists i :: 0 <= i < |p.children| && ConvertTree(p.children[i], css, render) == Failure(r.error)
                                 && forall j :: 0 <= j < i ==> ConvertTree(p.children[j], css, render).Success?)
  {
    var cs := p.children;
    var results := seq(|cs|, i requires 0 <= i < |cs| => ConvertTree(cs[i], css, render));
    assert forall i :: 0 <= i < |cs| ==> results[i] == ConvertTree(cs[i], css, render);
  }

  /** The flag reports exactly whether an eligible leaf is reachable. */
  lemma {:induction false} FlagMeansEligibleLeaf(p: Part, css: Option<string>, render: Renderer)
    requires ConvertTree(p, css, render).Success?
    ensures ConvertTree(p, css, render).value.1 <==> HasEligible(p)
    decreases p
  {
    match p
    case Leaf(_, _, _) =>
    case Multi(ctype, _, cs) =>
      if ctype == MultipartSigned {
        ConvertSigned(p, css, render);
        var i :| IsFirstBody(cs, i) by {
          var k := FirstBody(cs).value;
          assert IsFirstBody(cs, k);
        }
        FlagMeansEligibleLeaf(cs[i], css, render);
        assert HasEligible(p) <==> HasEligible(cs[i]) by {
          forall j | IsFirstBody(cs, j) ensures j == i {
            FirstBodyUnique(cs, i);
            FirstBodyUnique(cs, j);
          }
        }
      } else {
        ConvertContainer(p, css, render);
        forall i | 0 <= i < |cs| ensures ConvertTree(cs[i], css, render).value.1 <==> HasEligible(cs[i]) {
          FlagMeansEligibleLeaf(cs[i], css, render);
        }
      }
  }

  /** The conversion succeeds exactly when every leaf it reaches can be
      converted and every signed node it reaches has a body. */
  ghost predicate Convertible(p: Part, css: Option<string>, render: Renderer)
    decreases p
  {
    match p
    case Leaf(_, _, body) =>
      !Eligible(p) || (|Split(body, SignatureDelimiter)| <= 2 && render(RequestFor(body, css)).Some?)
    case Multi(ctype, _, cs) =>
      if ctype == MultipartSigned then
        exists i :: 0 <= i < |cs| && IsFirstBody(cs, i) && Convertible(cs[i], css, render)
      else
        forall i :: 0 <= i < |cs| ==> Convertible(cs[i], css, render)
  }

  lemma {:induction false} SucceedsWhenConvertible(p: Part, css: Option<string>, render: Renderer)
    ensures ConvertTree(p, css, render).Success? <==> Convertible(p, css, render)
    decreases p
  {
    match p
    case Leaf(_, _, _) =>
      if Eligible(p) {
        ConvertOneSucceeds(p, css, render);
      }
    case Multi(ctype, _, cs) =>
      if ctype == MultipartSigned {
        ConvertSigned(p, css, render);
        match FirstBody(cs)
        case None =>
        case Some(i) =>
          assert IsFirstBody(cs, i);
          SucceedsWhenConvertible(cs[i], css, render);
          forall j | IsFirstBody(cs, j) ensures j == i {
            FirstBodyUnique(cs, j);
          }
      } else {
        ConvertContainer(p, css, render);
        forall i | 0 <= i < |cs|
          ensures ConvertTree(cs[i], css, render).Success? <==> Convertible(cs[i], css, render)
        {
          SucceedsWhenConvertible(cs[i], css, render);
        }
      }
  }

  /** `rebuild_multipart`: the message itself when nothing was converted;
      otherwise a `multipart/alternative` envelope holding the original, its
      header fields partitioned, and then the converted tree. */
  function RebuildMultipart(mail: Part, css: Option<string>, render: Renderer): (r: Result<Part, ConversionError>)
    ensures r.Success? <==> Convertible(mail, css, render)
    ensures r.Success? && !HasEligible(mail) ==> r.value == mail
    ensures r.Success? && HasEligible(mail) ==>
              && r.value.Multi?
              && r.value.ctype == MultipartAlternative
              && |r.value.children| == 2
              && r.value.children[0] == mail.(headers := r.value.children[0].headers)
              && ConvertTree(mail, css, render).Success?
              && r.value.children[1] == ConvertTree(mail, css, render).value.0
    ensures r.Success? && HasEligible(mail) ==>
              && (forall h :: h in r.value.headers <==> h in mail.headers && !IsBcc(h.name) && !DescribesContent(h.name))
              && (forall h :: h in r.value.children[0].headers ==> h in mail.headers && !IsBcc(h.name) && DescribesContent(h.name))
    ensures r.Success? && HasEligible(mail) ==>
              && r.value.headers == EnvelopeHeaders(mail.headers)
              && r.value.children[0].headers == InnerHeaders(mail.headers)
  {
    SucceedsWhenConvertible(mail, css, render);
    var converted :- ConvertTree(mail, css, render);
    FlagMeansEligibleLeaf(mail, css, render);
    if !converted.1 then
      Success(mail)
    else
      EnvelopeMembers(mail.headers);
      InnerMembers(mail.headers);
      var inner := mail.(headers := InnerHeaders(mail.headers));
      Success(Multi(MultipartAlternative, EnvelopeHeaders(mail.headers), [inner, converted.0]))
  }
}

=== FILE: wrappers.dfy ===
/** Failure-carrying result types used by the conversion pipeline. */
module Wrappers {

  /** An optional value: a header that may be absent, a child that may not exist. */
  datatype Option<+T> = None | Some(value: T) {

    /** The carried value, or `default` when there is none. */
    function GetOr(default: T): T {
      match this
      case Some(v) => v
      case None => default
    }
  }

  /** Either a value or the error that stopped the computation; usable with `:-`. */
  datatype Result<+R, +E> = Success(value: R) | Failure(error: E) {

    predicate IsFailure() {
      Failure?
    }

    function PropagateFailure<U>(): Result<U, E>
      requires Failure?
    {
      Failure(error)
    }

    function Extract(): R
      requires Success?
    {
      value
    }
  }
}
